=== FILE: README.md ===
# Bookeen Muse device catalog, modelled in Dafny

This project models the catalog logic of the calibre driver for Bookeen's
Cybook Muse e-readers. Each storage volume of the reader (internal memory
mounted at `/mnt/fat/`, memory card at `/mnt/sd/`) carries an SQLite catalog
with the tables `T_UUIDDB`, `T_SHELF`, `T_SHELF_LINK` and `T_ITEM`. The
driver's `BookeenDatabase` reads them into:

- a volume record per storage area: its uuid, its catalog path, its mount
  prefix, and a map from item id to book;
- a global map from (volume uuid, item id) to book;
- the shelves ("collections"), each with its members in link order.

It also reports device books that no host-library book matches by relative
path (`match`). Finally, it closes a book on the device by resetting its
current page to -1 and its last-read stamp to NULL (`close_book`).

Tables are sequences of row datatypes (`Catalog.ItemRow`, ...). The catalog
files present on the device are a map from path to `Catalog`. Python
exceptions are `Failure` values of `Catalog.Error`. The host platform's path
separator (`os.sep`) is a parameter.

Modules:

- `Wrappers`: `Option` (Python `None` / SQL `NULL`) and `Result`.
- `Sets`: picking an element of a set, the way a dict is iterated.
- `Catalog`: the row types and the file-row query. It also holds `Upsert`,
  the "later row overwrites earlier row" loop shared by the shelf and link
  maps.
- `Books`: `BookeenBook`. It covers the title default, slash-normalised
  `lpath`, and `path` joined and written with the platform separator.
- `Shelves`: `BookeenShelf`.
- `Loader`: `BookeenDatabase.__init__` and `init_db`.
- `Matching`: `match`.
- `Closing`: `close_book` and `get_database_path`. These are identical in
  books.py and test.py.
- `Script`: the earlier stand-alone snapshot in test.py. It covers its
  `Book`, its loader, and the `__main__` loop that closes unfinished books
  opened no further than a given page.

Behaviour of the code worth knowing:

- `match` only reports orphans; it computes no other result.
- A link naming a shelf that was never loaded raises (`UnknownShelf`). It is
  not skipped.
- The close loop skips finished books.
- The shelf link map is shared by both volumes and ignores the link's
  `f_db_uuid`. A card item whose id is linked on the main volume is
  therefore appended to that main-volume shelf, or fails the card load if
  the shelf is unknown. `Loader.LoadItemsFillsShelves` states this for
  either role.

## Model

| member | source | states |
|---|---|---|
| `Catalog.SelectFiles` | books.py:71 | every selected row has file type 2 and comes from the table, and every file-type-2 row is selected |
| `Catalog.Upsert` | books.py:62-68 | after the loop the keys are the old ones plus those of the rows; each key holds the value of its LAST row; keys no row names keep their old value (so `shelves_links` keeps only the last link per item, and a repeated shelf id keeps the last shelf row) |
| `Books.Replace` | books.py:179 | `str.replace` on one character: same length, each occurrence of the target replaced, every other character kept |
| `Books.Join` | books.py:176 | `os.path.join`: an empty prefix gives `lpath`, an absolute `lpath` wins, otherwise exactly one separator joins them (none when the prefix already ends in one) |
| `Books.NewBook` | books.py:155-181 | a present non-empty title is kept, a missing or empty one becomes "(No title)"; finished, current page and size are copied; under a backslash separator `lpath` has every backslash turned into `/` and nothing else changed, and `path` is `os.path.join(prefix, lpath)` with every `/` turned into a backslash; otherwise `lpath` is the argument unchanged |
| `Books.LpathIgnoresPrefix` | books.py:176-181 | the relative path does not depend on the prefix |
| `Books.LpathNormalIsStable` | books.py:177-181 | building a book from an already normalised `lpath` leaves it unchanged |
| `Books.PathAgreesWithLpath` | books.py:176-181 | with an empty prefix, `path` is `lpath` in platform separators: flipping its backslashes back to `/` gives `lpath` |
| `Shelves.FromRow` | books.py:137-141 | a new shelf has the row's name and id, no members, and is read-only exactly when `f_readonly` is 1 |
| `Shelves.AddBook` | books.py:148-149 | `add_book` appends the book after the existing members and changes nothing else about the shelf |
| `Shelves.GetBooks` | books.py:151-152 | `get_books` returns the member list itself; its order is the one `Shelves.InsertionOrder` states |
| `Shelves.InsertionOrder` | books.py:147-151 | after `add_book` of each book in turn, `get_books` returns the earlier members followed by the added books in the order they were added; name, id and read-only flag are unchanged |
| `Loader.Fresh` | books.py:34-37 | before loading, both volumes have empty uuids and books, main is mounted at `/mnt/fat/` and the card at `/mnt/sd/` |
| `Loader.ItemBook` | books.py:73-75 | finished exactly when `f_islastpage` is truthy, current page copied, title defaulted, and `lpath` is the URI with its first `len(prefix_fs)` characters dropped, whatever they are (empty when the URI is shorter), with backslashes turned into slashes when `os.sep` is a backslash |
| `Loader.Attach` | books.py:76-77 | attaching fails, with the shelf id, exactly when the item is linked to a shelf that is not loaded; otherwise the book is appended to its linked shelf, every other shelf is unchanged, and no shelf is added or removed |
| `Loader.LoadItems` | books.py:72-80 | the item loop over the selected rows can fail only with `UnknownShelf`; when it fails, when it succeeds and what it stores are stated by `Loader.LoadItemsFailsOnUnknownShelf`, `Loader.LoadItemsFrame`, `Loader.LoadItemsStoresBooks` and `Loader.LoadItemsFillsShelves` |
| `Loader.LoadItem` | books.py:72-80 | one loop turn fails exactly on an unknown linked shelf; otherwise it stores the row's book under (uuid, item id) and under its item id in the volume, appends it to its linked shelf only, and changes no link, no shelf id, no other volume and not this volume's identity |
| `Loader.LoadItemsFailsOnUnknownShelf` | books.py:72-80 | the item loop succeeds exactly when every row is attachable, and otherwise fails with the id of the unknown shelf of the first unattachable row in row order |
| `Loader.LoadItemsFailsAtFirst` | books.py:72-77 | a failing item loop raises at the first row, in row order, whose linked shelf is not loaded, with that shelf's id; every earlier row was attachable |
| `Loader.LoadItemsSucceedsIffAttachable` | books.py:72-77 | the item loop succeeds exactly when every row's linked shelf, if any, is loaded |
| `Loader.LoadItemsFrame` | books.py:72-80 | a successful item loop changes no link, shelf id or other volume, nor this volume's uuid, path and prefix |
| `Loader.LoadItemsStoresBooks` | books.py:79-80 | a successful item loop stores each row's book under (uuid, item id) globally and under the item id in the volume, the last row winning, and nothing else |
| `Loader.Members` | books.py:76-77 | the books appended to a shelf are exactly those of rows linked to it |
| `Loader.LoadItemsFillsShelves` | books.py:76-77 | a successful item loop appends to each shelf exactly the books of the rows linked to it, in row order |
| `Loader.OpenCatalog` | books.py:50-71 | a missing catalog is `CatalogUnavailable`, an empty `T_UUIDDB` is `CatalogCorrupt`; otherwise the uuid is the first row's, shelves and links are loaded for the main volume only, and the file rows are selected |
| `Loader.InitDb` | books.py:48-80 | `init_db` fails with `CatalogUnavailable` / `CatalogCorrupt` exactly in those cases, and succeeds exactly when the catalog opens and every file row's linked shelf is loaded; on success the links and shelf ids are those after the catalog's tables are read, and the volume carries the catalog's uuid and keeps its path and prefix, the other volume is untouched, and the card load changes no link or shelf id |
| `Loader.InitDbLoadsOnlyFiles` | books.py:71-80 | after `init_db` the volume's item ids are the old ones plus exactly the ids of file-type-2 rows, and both maps equal the last-row-wins load of the selected rows |
| `Loader.InitDbMainShelves` | books.py:59-77 | for the main volume the link map is the last-row-wins map of `T_SHELF_LINK`, the shelf ids are the old ones plus those of `T_SHELF`, and each shelf receives exactly its linked books in row order |
| `Loader.Open` | books.py:31-41 | a missing or uuid-less main catalog fails; loading succeeds exactly when the main catalog exists, has a uuid row and every file row's linked shelf is among its own shelves, and, when a non-empty card path is given, the card catalog meets the same condition against the main catalog's shelves and links; on success main carries its catalog's uuid, the card is loaded exactly when a non-empty card path is given and is otherwise left empty |
| `Loader.FavoritesLoad` | books.py:48-80 | loading a main catalog with shelf 1, a link 10 to 1 and item 10 at `/mnt/fat/book.epub` (last page, page 5) yields one book "book.epub", finished, page 5, under its key and as the only member of shelf 1 |
| `Matching.VolumeFor` | books.py:87-93 | `None` selects main, `'carda'` selects the card, anything else selects nothing |
| `Matching.Match` | books.py:84-102 | an unknown volume name examines nothing; otherwise the reported item ids are exactly the volume's books whose `lpath` equals no host book's `lpath` |
| `Matching.OrphansShrink` | books.py:95-102 | adding host books never creates an orphan |
| `Matching.FavoritesMatch` | books.py:95-102 | for the loaded "book.epub", a host library holding "book.epub" leaves no orphan and an empty one reports item 10 |
| `Closing.ResetItem` | books.py:112-113 | the update keeps the row count; rows with the id get current page -1 and no last-read stamp and keep every identifying column; all other rows are unchanged |
| `Closing.ResetItemTwice` | books.py:112-113 | applying the update twice equals applying it once |
| `Closing.FirstPath` | books.py:117-120 | a returned path belongs to a volume with that uuid; no volume with it gives `None`; if every volume with it has a path, one is returned |
| `Closing.GetDatabasePath` | books.py:117-120 | the same for the main and card volumes |
| `Closing.CloseBook` | books.py:104-114 | closing succeeds exactly when the uuid resolves to a catalog file (`NoSuchVolume` when it resolves to no path); only that file's `T_ITEM` changes, by the single-id reset |
| `Closing.CloseBookIdempotent` | books.py:104-114 | closing a book twice leaves the files as closing it once |
| `Script.ScriptBook` | test.py:120-147 | this snapshot's book without its size check: a missing or empty title becomes "No title", a non-empty one is kept, fields are copied, and `lpath` and `path` are built and normalised as in the later driver |
| `Script.ScriptBookAsWritten` | test.py:127 | construction fails with an assertion error exactly when no size is given |
| `Script.ScriptFresh` | test.py:29-32 | the snapshot starts with the given paths, empty uuids, no books, shelves or links, and no mount prefixes |
| `Script.LoadItemAsWritten` | test.py:62-69 | one turn of the loop as written: with no size it fails with the assertion error; with a size it fails exactly on an unknown linked shelf; it never changes a volume or the links |
| `Script.LoadItemsAsWritten` | test.py:61-69 | as written (no size), the loop succeeds only on an empty selection and otherwise fails with the assertion error; any failure is the assertion or an unknown shelf |
| `Script.InitDbAsWritten` | test.py:38-69 | the snapshot's `init_db` as written fails with `CatalogUnavailable` / `CatalogCorrupt` exactly as the later driver does, fails with the assertion error exactly when the catalog holds a file row, and so succeeds only on a catalog with no books |
| `Script.OpenAsWritten` | test.py:26-36 | as written, the snapshot's constructor fails on a missing or uuid-less main catalog and on any main catalog holding a book file, so it succeeds only when the main catalog has no books |
| `Script.RowBook` | test.py:63-65 | the snapshot's loader builds every book with an empty `lpath` and `path` and no size, finished from `f_islastpage`, the page copied, and the row's title kept when present and non-empty, "No title" otherwise (test.py:129-132) |
| `Script.AsWrittenRejectsEveryBook` | test.py:62-67 | as written, the loop with no size fails on the first file row and succeeds only on an empty selection |
| `Script.FavoritesAsWritten` | test.py:34-65 | as written, the stand-alone script cannot load a catalog with a single book |
| `Script.ScriptLoadItem` | test.py:62-69 | one loop turn fails exactly on an unknown linked shelf; otherwise it stores the row's book under (uuid, item id), appends it to its linked shelf only, and changes no link, shelf id or volume |
| `Script.ScriptLoadItems` | test.py:61-69 | without the size check the loop can fail only with `UnknownShelf` and leaves both volumes unchanged; `Script.LoadItemsStoresEveryFile` states when it fails and what it stores |
| `Script.ScriptInitDb` | test.py:38-69 | without the size check, `init_db` fails with `CatalogUnavailable` / `CatalogCorrupt` exactly in those cases and succeeds exactly when the catalog opens and every file row's linked shelf is loaded; on success the volume carries the catalog's uuid, the other volume is untouched, and the global books are the old ones plus the book of every file-type-2 row under (uuid, item id), last row winning |
| `Script.ScriptOpen` | test.py:26-36 | without the size check, a missing or uuid-less main catalog fails; loading succeeds under the same condition as `Loader.Open`; on success main carries its catalog's uuid and path, the card is loaded exactly when a non-empty card path is given and is otherwise left empty |
| `Script.LoadItemsStoresEveryFile` | test.py:61-69 | without the size check, the loop succeeds exactly when every row is attachable, and then stores every row's book under (uuid, item id), last row winning, leaving both volumes untouched |
| `Script.FavoritesFixed` | test.py:38-69 | without the size check the one-book catalog loads, under its key, with an empty `lpath`, its title and page 5 |
| `Script.Selection` | test.py:170-174 | a book is selected exactly when `to_close` is positive, the book is unfinished, and its current page is present and within `[0, to_close]`; a missing or zero `to_close` selects nothing |
| `Script.CloseStep` | test.py:71-81 | closing one more resolvable book moves from the state with some books closed to the state with that book closed too |
| `Script.CloseSelected` | test.py:170-174 | the close loop closes only selected books; the files show exactly those as closed; it stops early exactly when some selected book's uuid resolves to no catalog, and otherwise closes every selected book |

## Left out

- SQLite connections, `closing` and `commit`: each catalog is an in-memory value, and a write is a new value of the file map.
- A catalog file that lacks one of the tables `T_UUIDDB`, `T_SHELF`, `T_SHELF_LINK` or `T_ITEM`: `sqlite3.OperationalError` would be raised by the first query on it (books.py:56, 62, 66, 71, and the update at books.py:112-113). A `Catalog.Catalog` value always holds all four tables, so this error cannot arise in the model.
- A catalog path with no file: `sqlite3.connect` would create an empty file, and the first query would then fail. The model reports `CatalogUnavailable` and does not model the created file.
- The calibre library lookup for `update_fields` (books.py:42-46): it is host library code that is not visible here.
- The calibre `Book` base-class initialiser, `authors_from_string` and `author_to_author_sort` (books.py:157, 168-171): these are external library code. `date`, `_new_book` and `device_collections` are set to `None` (the default `date`), `False` and `[]` for every book the loader builds (books.py:173-175); the model does not use them, so they are omitted.
- `__str__`, logging calls, `print` statements, and `dict_factory`: the model keeps no output and no row dictionaries. These messages can also fail; the next three lines say where.
- Matching.Match: the model reports every orphan. The source is Python 2, and `sqlite3` returns text columns as `unicode`. Formatting a non-ASCII title or `lpath` into the byte-string message at books.py:102 raises `UnicodeEncodeError`. `match` would then stop at the first such orphan.
- Closing.CloseBook: the closing `print` (books.py:115) formats the book through `__str__` (books.py:184), which formats its title. For a non-ASCII title it raises `UnicodeEncodeError` after the update has been committed. The model keeps only the committed update.
- Script.CloseSelected: test.py:81 prints the same way through test.py:150. A non-ASCII title therefore stops the close loop (test.py:170-174) right after that book is committed. The model goes on to the remaining selected books.
- The trailing `print` in `close_book` (books.py:115) reads `self.books[book_id]`. It raises for an unloaded key after the update has been committed. The model keeps only the committed update.
- `Descriptions` (books.py:123-133): nothing in the loader refers to it; the loader's own file-type literal `2` is `Catalog.FileType`.
- logger.py, driver.py and `__init__.py`: these hold output redirection, USB ids and driver configuration.
- The argparse handling in test.py (lines 153-159) and the debug listing (lines 162-168).
- A NULL `f_internal_uri`: slicing `None` raises a `TypeError` in the source. The model's URI is always a string.
- Python 2's `int`/`long` distinction in `isinstance(size, int)`: a size is either absent or an integer.
- Windows drive letters in `os.path.join`: neither loader uses a non-empty prefix, so `Books.Join` handles only prefixes without drives.
- Python dict iteration order. Volumes' books and the global books are maps, orphans are a set, and the close loop picks books in an arbitrary order.
- Closing.GetDatabasePath: when both volumes carry the requested uuid, the contract only says the path is one of theirs. The source's dict order decides which one, and the model scans main first.
- The partial state an exception leaves inside `init_db`: the exception escapes the constructor, so no database object survives, and the model returns only the error.

## Findings

| source | as written | input that shows it | evidently intended | confidence | as-written member | corrected member |
|---|---|---|---|---|---|---|
| test.py:65 | `init_db` builds every book as `Book('', '', title, finished=..., current_page=...)` with no size, and `Book.__init__` asserts `isinstance(size, int)` (test.py:127), so the first file row raises `AssertionError` | a main catalog with one `T_ITEM` row of file type 2 (`Loader.FavoritesCatalog`) | books are built without the size check, as the later driver does (books.py:162) | high, not executed | `Script.FavoritesAsWritten` | `Script.LoadItemsStoresEveryFile` |

=== FILE: books.dfy ===
/** The device-side book record built by the loader (`BookeenBook`). */
module Books {
  import opened Wrappers

  const Slash: char := '/'
  const Backslash: char := '\\'

  /** The title given to a book whose catalog title is missing or empty. */
  const NoTitle: string := "(No title)"

  /**
   * A book as the driver holds it: `lpath` is relative to the volume root and
   * slash-separated, `path` is `lpath` joined to the mount prefix in the host
   * platform's own separators.
   */
  datatype Book = Book(
    title: string,
    lpath: string,
    path: string,
    finished: bool,
    currentPage: Option<int>,
    size: Option<int>)

  /** `s.replace(target, replacement)` for single characters. */
  function Replace(s: string, target: char, replacement: char): (r: string)
    ensures |r| == |s|
    ensures forall i :: 0 <= i < |s| ==> r[i] == (if s[i] == target then replacement else s[i])
  {
    if s == [] then []
    else [if s[0] == target then replacement else s[0]] + Replace(s[1..], target, replacement)
  }

  /** The title kept when present and non-empty, `sentinel` otherwise. */
  function TitleOr(title: Option<string>, sentinel: string): string {
    if title.Some? && |title.value| > 0 then title.value else sentinel
  }

  /** Whether `c` separates path components on a platform whose `os.sep` is `sep`. */
  predicate IsSep(c: char, sep: char) {
    c == sep || (sep == Backslash && c == Slash)
  }

  /**
   * `os.path.join(prefix, lpath)`: an absolute `lpath` replaces the prefix,
   * otherwise one separator is put between them unless the prefix is empty or
   * already ends in one.
   */
  function Join(prefix: string, lpath: string, sep: char): (r: string)
    ensures prefix == [] ==> r == lpath
    ensures |lpath| > 0 && IsSep(lpath[0], sep) ==> r == lpath
    ensures |lpath| <= |r| && r[|r| - |lpath|..] == lpath
    ensures r == lpath || (|prefix| <= |r| && r[..|prefix|] == prefix)
    ensures |prefix| > 0 && !(|lpath| > 0 && IsSep(lpath[0], sep)) ==>
      r == (if IsSep(prefix[|prefix| - 1], sep) then prefix + lpath else prefix + [sep] + lpath)
  {
    if |lpath| > 0 && IsSep(lpath[0], sep) then lpath
    else if prefix == [] || IsSep(prefix[|prefix| - 1], sep) then prefix + lpath
    else prefix + [sep] + lpath
  }

  /**
   * `BookeenBook(prefix, lpath, title, finished=..., current_page=..., size=...)`
   * on a platform whose `os.sep` is `sep`.
   */
  function NewBook(
    prefix: string, lpath: string, title: Option<string>,
    finished: bool, currentPage: Option<int>, size: Option<int>, sep: char): (b: Book)
    ensures |b.title| > 0
    ensures title.Some? && |title.value| > 0 ==> b.title == title.value
    ensures title.None? || |title.value| == 0 ==> b.title == NoTitle
    ensures b.finished == finished && b.currentPage == currentPage && b.size == size
    ensures sep != Backslash ==> b.lpath == lpath && b.path == Join(prefix, lpath, sep)
    ensures sep == Backslash ==> Backslash !in b.lpath && Slash !in b.path
    ensures sep == Backslash ==>
      |b.lpath| == |lpath| &&
      forall i :: 0 <= i < |lpath| ==> b.lpath[i] == (if lpath[i] == Backslash then Slash else lpath[i])
    ensures sep == Backslash ==>
      var joined := Join(prefix, lpath, sep);
      |b.path| == |joined| &&
      forall i :: 0 <= i < |joined| ==> b.path[i] == (if joined[i] == Slash then Backslash else joined[i])
  {
    var joined := Join(prefix, lpath, sep);
    Book(
      TitleOr(title, NoTitle),
      if sep == Backslash then Replace(lpath, Backslash, Slash) else lpath,
      if sep == Backslash then Replace(joined, Slash, Backslash) else joined,
      finished, currentPage, size)
  }

  /** The relative path never depends on the mount prefix. */
  lemma LpathIgnoresPrefix(
    p1: string, p2: string, lpath: string, title: Option<string>,
    finished: bool, currentPage: Option<int>, size: Option<int>, sep: char)
    ensures NewBook(p1, lpath, title, finished, currentPage, size, sep).lpath
         == NewBook(p2, lpath, title, finished, currentPage, size, sep).lpath
  {
  }

  /** Replacing a character twice is the same as replacing it once. */
  lemma {:induction false} ReplaceTwice(s: string, target: char, replacement: char)
    ensures Replace(Replace(s, target, replacement), target, replacement) == Replace(s, target, replacement)
  {
    if s != [] {
      ReplaceTwice(s[1..], target, replacement);
    }
  }

  /** Normalising an already normalised relative path changes nothing. */
  lemma LpathNormalIsStable(
    prefix: string, lpath: string, title: Option<string>,
    finished: bool, currentPage: Option<int>, size: Option<int>, sep: char)
    ensures var b := NewBook(prefix, lpath, title, finished, currentPage, size, sep);
      NewBook(prefix, b.lpath, title, finished, currentPage, size, sep).lpath == b.lpath
  {
    ReplaceTwice(lpath, Backslash, Slash);
  }

  /**
   * Without a prefix, `path` is `lpath` written with the platform's
   * separators: turning its backslashes back into slashes gives `lpath`.
   */
  lemma PathAgreesWithLpath(
    lpath: string, title: Option<string>,
    finished: bool, currentPage: Option<int>, size: Option<int>, sep: char)
    ensures var b := NewBook([], lpath, title, finished, currentPage, size, sep);
      (sep == Backslash ==> Replace(b.path, Backslash, Slash) == b.lpath) &&
      (sep != Backslash ==> b.path == b.lpath)
  {
    var b := NewBook([], lpath, title, finished, currentPage, size, sep);
    if sep == Backslash {
      assert Replace(b.path, Backslash, Slash) == b.lpath;
    }
  }
}

=== FILE: catalog.dfy ===
/** The on-device SQLite catalog, one per storage volume, as in-memory tables. */
module Catalog {
  import opened Wrappers

  /** One row of `T_UUIDDB`: the identity of the volume. */
  datatype UuidRow = UuidRow(dbUuid: string)

  /** One row of `T_SHELF`: a collection definition. */
  datatype ShelfRow = ShelfRow(idShelf: int, name: Option<string>, readonly: Option<int>)

  /** One row of `T_SHELF_LINK`: an item's membership of a shelf. */
  datatype LinkRow = LinkRow(itemId: int, shelfId: int, dbUuid: string)

  /** One row of `T_ITEM`; `lastRead` is the `f_last_read` timestamp. */
  datatype ItemRow = ItemRow(
    idItem: int,
    fileType: int,
    internalUri: string,
    title: Option<string>,
    isLastPage: Option<int>,
    currentPage: Option<int>,
    lastRead: Option<int>)

  /** The tables of one catalog file, each in storage order. */
  datatype Catalog = Catalog(
    uuids: seq<UuidRow>,
    shelves: seq<ShelfRow>,
    links: seq<LinkRow>,
    items: seq<ItemRow>)

  /** The ways loading or updating a catalog can fail. */
  datatype Error =
    | CatalogUnavailable   // no catalog at the path (or no path at all)
    | CatalogCorrupt       // `T_UUIDDB` has no row
    | UnknownShelf(shelfId: int)  // a link names a shelf that was never loaded
    | NoSuchVolume         // no loaded volume has the requested uuid
    | AssertionFailed      // a constructor's `assert` did not hold

  /** `f_item_filetype` of a file (directories are 1). */
  const FileType: int := 2

  /** Python truthiness of a nullable integer column. */
  predicate Truthy(v: Option<int>) {
    v.Some? && v.value != 0
  }

  /** `SELECT * FROM T_ITEM WHERE f_item_filetype=2`, in storage order. */
  function SelectFiles(items: seq<ItemRow>): (r: seq<ItemRow>)
    ensures forall row :: row in r ==> row in items && row.fileType == FileType
    ensures forall row :: row in items && row.fileType == FileType ==> row in r
    ensures |r| <= |items|
  {
    if items == [] then []
    else if items[0].fileType == FileType then [items[0]] + SelectFiles(items[1..])
    else SelectFiles(items[1..])
  }

  /** The keys `key` gives to the rows of `rows`. */
  function KeysOf<T, K>(rows: seq<T>, key: T -> K): set<K> {
    set i | 0 <= i < |rows| :: key(rows[i])
  }

  /** No row after position `i` has the same key as row `i`. */
  predicate IsLast<T, K(==)>(rows: seq<T>, key: T -> K, i: int)
    requires 0 <= i < |rows|
  {
    forall j :: i < j < |rows| ==> key(rows[j]) != key(rows[i])
  }

  lemma KeysOfCons<T, K>(rows: seq<T>, key: T -> K)
    requires |rows| > 0
    ensures KeysOf(rows, key) == {key(rows[0])} + KeysOf(rows[1..], key)
  {
    forall k | k in KeysOf(rows, key)
      ensures k in {key(rows[0])} + KeysOf(rows[1..], key)
    {
      var i :| 0 <= i < |rows| && key(rows[i]) == k;
      if i > 0 {
        assert key(rows[1..][i - 1]) == k;
      }
    }
    forall k | k in KeysOf(rows[1..], key)
      ensures k in KeysOf(rows, key)
    {
      var i :| 0 <= i < |rows[1..]| && key(rows[1..][i]) == k;
      assert key(rows[i + 1]) == k;
    }
  }

  /**
   * Visits `rows` in order and stores `val(row)` under `key(row)`, as the
   * loader's `d[row[...]] = ...` loops do: a later row overwrites an earlier
   * one with the same key.
   */
  function Upsert<T, K, V>(m: map<K, V>, rows: seq<T>, key: T -> K, val: T -> V): (r: map<K, V>)
    ensures r.Keys == m.Keys + KeysOf(rows, key)
    ensures forall k :: k in m && k !in KeysOf(rows, key) ==> r[k] == m[k]
    ensures forall i :: 0 <= i < |rows| && IsLast(rows, key, i) ==> r[key(rows[i])] == val(rows[i])
    decreases |rows|
  {
    if rows == [] then m
    else
      var m' := m[key(rows[0]) := val(rows[0])];
      var r := Upsert(m', rows[1..], key, val);
      KeysOfCons(rows, key);
      assert forall i :: 1 <= i < |rows| && IsLast(rows, key, i) ==> IsLast(rows[1..], key, i - 1) && rows[1..][i - 1] == rows[i];
      r
  }
}

=== FILE: closing.dfy ===
/** Closing a book on the device (`close_book`, `get_database_path`). */
module Closing {
  import opened Wrappers
  import opened Catalog
  import opened Loader

  /** The `f_current_page` the reader takes to mean "not being read". */
  const ResetPage: int := -1

  /** One item row after closing: no current page, never read. */
  function ResetRow(row: ItemRow): ItemRow {
    row.(currentPage := Some(ResetPage), lastRead := None)
  }

  /**
   * `UPDATE T_ITEM SET f_current_page = -1, f_last_read = NULL
   *  WHERE f_id_item = id`.
   */
  function ResetItem(items: seq<ItemRow>, id: int): (r: seq<ItemRow>)
    ensures |r| == |items|
    ensures forall i :: 0 <= i < |items| && items[i].idItem == id ==>
      r[i].currentPage == Some(ResetPage) && r[i].lastRead == None
    ensures forall i :: 0 <= i < |items| ==>
      r[i].idItem == items[i].idItem && r[i].fileType == items[i].fileType &&
      r[i].internalUri == items[i].internalUri && r[i].title == items[i].title &&
      r[i].isLastPage == items[i].isLastPage
    ensures forall i :: 0 <= i < |items| && items[i].idItem != id ==> r[i] == items[i]
  {
    if items == [] then []
    else [if items[0].idItem == id then ResetRow(items[0]) else items[0]] + ResetItem(items[1..], id)
  }

  /** Closing the same item twice leaves the rows as closing it once. */
  lemma ResetItemTwice(items: seq<ItemRow>, id: int)
    ensures ResetItem(ResetItem(items, id), id) == ResetItem(items, id)
  {
    var once := ResetItem(items, id);
    assert forall i :: 0 <= i < |items| ==> ResetItem(once, id)[i] == once[i];
  }

  /** The first volume of `vols` with this uuid decides the path. */
  function FirstPath(vols: seq<Volume>, uuid: string): (r: Option<string>)
    ensures r.Some? ==> exists v :: v in vols && v.uuid == uuid && v.path == r
    ensures (forall v :: v in vols ==> v.uuid != uuid) ==> r.None?
    ensures (exists v :: v in vols && v.uuid == uuid) && (forall v :: v in vols && v.uuid == uuid ==> v.path.Some?) ==>
      r.Some?
  {
    if vols == [] then None
    else if vols[0].uuid == uuid then vols[0].path
    else
      assert forall v :: v in vols <==> v == vols[0] || v in vols[1..];
      FirstPath(vols[1..], uuid)
  }

  /**
   * `get_database_path(uuid)`: the path of a volume whose uuid is `uuid`, or
   * `None` when no volume has it (or the one found has no path).
   */
  function GetDatabasePath(db: Database, uuid: string): (r: Option<string>)
    ensures r.Some? ==> (db.main.uuid == uuid && db.main.path == r) || (db.card.uuid == uuid && db.card.path == r)
    ensures db.main.uuid != uuid && db.card.uuid != uuid ==> r.None?
    ensures ((db.main.uuid == uuid || db.card.uuid == uuid) &&
             (db.main.uuid == uuid ==> db.main.path.Some?) &&
             (db.card.uuid == uuid ==> db.card.path.Some?)) ==> r.Some?
  {
    FirstPath([db.main, db.card], uuid)
  }

  /** Whether closing the book with this key reaches a catalog file. */
  predicate Resolves(db: Database, files: Files, key: Key) {
    GetDatabasePath(db, key.0).Some? && GetDatabasePath(db, key.0).value in files
  }

  /**
   * `close_book((uuid, id))`: resets the item rows with that id in the
   * catalog of the volume with that uuid and in no other file.
   */
  function CloseBook(db: Database, files: Files, key: Key): (r: Result<Files, Error>)
    ensures r.Success? <==> Resolves(db, files, key)
    ensures r.Failure? ==> r.error == (if GetDatabasePath(db, key.0).None? then NoSuchVolume else CatalogUnavailable)
    ensures r.Success? ==>
      var p := GetDatabasePath(db, key.0).value;
      && r.value.Keys == files.Keys
      && (forall q :: q in files && q != p ==> r.value[q] == files[q])
      && r.value[p].items == ResetItem(files[p].items, key.1)
      && r.value[p].uuids == files[p].uuids && r.value[p].shelves == files[p].shelves
      && r.value[p].links == files[p].links
  {
    var path := GetDatabasePath(db, key.0);
    if path.None? then Failure(NoSuchVolume)
    else if path.value !in files then Failure(CatalogUnavailable)
    else
      var cat := files[path.value];
      Success(files[path.value := cat.(items := ResetItem(cat.items, key.1))])
  }

  /** Closing a book that was just closed changes nothing more. */
  lemma CloseBookIdempotent(db: Database, files: Files, key: Key)
    requires CloseBook(db, files, key).Success?
    ensures CloseBook(db, CloseBook(db, files, key).value, key) == CloseBook(db, files, key)
  {
    var p := GetDatabasePath(db, key.0).value;
    var once := CloseBook(db, files, key).value;
    ResetItemTwice(files[p].items, key.1);
    assert once[p].(items := ResetItem(once[p].items, key.1)) == once[p];
    assert once[p := once[p].(items := ResetItem(once[p].items, key.1))] == once;
  }
}

=== FILE: loader.dfy ===
/** The catalog loader (`BookeenDatabase.__init__` and `init_db`). */
module Loader {
  import opened Wrappers
  import opened Catalog
  import opened Books
  import opened Shelves

  /** The two storage volumes: internal memory and the memory card. */
  datatype Role = Main | Card

  /** A book's identity across volumes: (volume uuid, item id). */
  type Key = (string, int)

  /** A `shelves_links` entry: the shelf of an item and the link's volume uuid. */
  datatype Link = Link(shelfId: int, dbUuid: string)

  /** One entry of `databases`; `path` is `None` for a card that was not given. */
  datatype Volume = Volume(uuid: string, path: Option<string>, prefixFs: string, books: map<int, Book>)

  /** The loader's state: both volumes, the shelves, the link map and all books. */
  datatype Database = Database(
    main: Volume,
    card: Volume,
    collections: map<int, Shelf>,
    links: map<int, Link>,
    books: map<Key, Book>)
  {
    function Vol(role: Role): Volume {
      if role == Main then main else card
    }

    function WithVol(role: Role, v: Volume): (r: Database)
      ensures r.Vol(role) == v
      ensures r.Vol(Other(role)) == Vol(Other(role))
      ensures r.collections == collections && r.links == links && r.books == books
    {
      if role == Main then this.(main := v) else this.(card := v)
    }
  }

  function Other(role: Role): Role {
    if role == Main then Card else Main
  }

  /** Where each volume is mounted on the device; stripped from item URIs. */
  const MainPrefix: string := "/mnt/fat/"
  const CardPrefix: string := "/mnt/sd/"

  /** The catalog files present on the device, by path. */
  type Files = map<string, Catalog>

  /** The state before any catalog is read. */
  function Fresh(pathMain: string, pathCard: Option<string>): (db: Database)
    ensures db.main.path == Some(pathMain) && db.card.path == pathCard
    ensures db.main.prefixFs == MainPrefix && db.card.prefixFs == CardPrefix
    ensures db.main.books == map[] && db.card.books == map[] && db.books == map[]
    ensures db.collections == map[] && db.links == map[]
    ensures db.main.uuid == "" && db.card.uuid == ""
  {
    Database(
      Volume("", Some(pathMain), MainPrefix, map[]),
      Volume("", pathCard, CardPrefix, map[]),
      map[], map[], map[])
  }

  /** Python's `s[n:]`: empty once `n` passes the end. */
  function Drop(s: string, n: nat): (r: string)
    ensures n <= |s| ==> s == s[..n] + r
    ensures n > |s| ==> r == []
  {
    if n <= |s| then s[n..] else []
  }

  /** The book the loader builds for an item row of a volume mounted at `prefix`. */
  function ItemBook(row: ItemRow, prefix: string, sep: char): (b: Book)
    ensures b.finished <==> Truthy(row.isLastPage)
    ensures b.currentPage == row.currentPage
    ensures row.title.Some? && |row.title.value| > 0 ==> b.title == row.title.value
    ensures row.title.None? || |row.title.value| == 0 ==> b.title == NoTitle
    ensures sep != Backslash && |prefix| <= |row.internalUri| ==>
      row.internalUri == row.internalUri[..|prefix|] + b.lpath
    ensures sep != Backslash && |prefix| > |row.internalUri| ==> b.lpath == []
    ensures sep == Backslash ==> b.lpath == Replace(Drop(row.internalUri, |prefix|), Backslash, Slash)
  {
    NewBook([], Drop(row.internalUri, |prefix|), row.title, Truthy(row.isLastPage), row.currentPage, None, sep)
  }

  function ItemId(row: ItemRow): int {
    row.idItem
  }

  function BookKey(uuid: string): ItemRow -> Key {
    (row: ItemRow) => (uuid, row.idItem)
  }

  function BookOf(prefix: string, sep: char): ItemRow -> Book {
    (row: ItemRow) => ItemBook(row, prefix, sep)
  }

  function ShelfId(row: ShelfRow): int {
    row.idShelf
  }

  function LinkItem(row: LinkRow): int {
    row.itemId
  }

  function LinkOf(row: LinkRow): Link {
    Link(row.shelfId, row.dbUuid)
  }

  /** Whether a book with this item id can be attached to its linked shelf. */
  predicate Attachable(collections: map<int, Shelf>, links: map<int, Link>, id: int) {
    id !in links || links[id].shelfId in collections
  }

  /** Appends `b` to the shelf `links` names for `id`, if any. */
  function Attach(collections: map<int, Shelf>, links: map<int, Link>, id: int, b: Book): (r: Result<map<int, Shelf>, Error>)
    ensures r.Success? <==> Attachable(collections, links, id)
    ensures r.Failure? ==> r.error == UnknownShelf(links[id].shelfId)
    ensures r.Success? ==> r.value.Keys == collections.Keys
    ensures r.Success? ==> forall sid :: sid in collections ==>
      r.value[sid] == (if id in links && links[id].shelfId == sid then AddBook(collections[sid], b) else collections[sid])
  {
    if id !in links then Success(collections)
    else
      var sid := links[id].shelfId;
      if sid !in collections then Failure(UnknownShelf(sid))
      else Success(collections[sid := AddBook(collections[sid], b)])
  }

  /** What the item loop leaves alone. */
  predicate Frame(db: Database, db': Database, role: Role) {
    && db'.links == db.links
    && db'.collections.Keys == db.collections.Keys
    && db'.Vol(Other(role)) == db.Vol(Other(role))
    && db'.Vol(role).uuid == db.Vol(role).uuid
    && db'.Vol(role).path == db.Vol(role).path
    && db'.Vol(role).prefixFs == db.Vol(role).prefixFs
  }

  /** The body of the item loop for one row. */
  function LoadItem(db: Database, role: Role, row: ItemRow, sep: char): (r: Result<Database, Error>)
    ensures r.Success? <==> Attachable(db.collections, db.links, row.idItem)
    ensures r.Failure? ==> r.error == UnknownShelf(db.links[row.idItem].shelfId)
    ensures r.Success? ==> Frame(db, r.value, role)
    ensures r.Success? ==>
      var b := ItemBook(row, db.Vol(role).prefixFs, sep);
      && r.value.books == db.books[(db.Vol(role).uuid, row.idItem) := b]
      && r.value.Vol(role).books == db.Vol(role).books[row.idItem := b]
      && forall sid :: sid in db.collections ==>
           r.value.collections[sid] ==
             (if row.idItem in db.links && db.links[row.idItem].shelfId == sid
              then AddBook(db.collections[sid], b) else db.collections[sid])
  {
    var v := db.Vol(role);
    var b := ItemBook(row, v.prefixFs, sep);
    var collections :- Attach(db.collections, db.links, row.idItem, b);
    var stored := db.(collections := collections, books := db.books[(v.uuid, row.idItem) := b]);
    assert stored.Vol(Other(role)) == db.Vol(Other(role));
    Success(stored.WithVol(role, v.(books := v.books[row.idItem := b])))
  }

  /**
   * The item loop over the selected rows, in order; the first row linked to
   * an unknown shelf raises.
   */
  function LoadItems(db: Database, role: Role, rows: seq<ItemRow>, sep: char): (r: Result<Database, Error>)
    ensures r.Failure? ==> r.error.UnknownShelf?
    decreases |rows|
  {
    if rows == [] then Success(db)
    else
      var db' :- LoadItem(db, role, rows[0], sep);
      LoadItems(db', role, rows[1..], sep)
  }

  /** Every row's item can be attached: the item loop will not raise. */
  predicate AllAttachable(collections: map<int, Shelf>, links: map<int, Link>, rows: seq<ItemRow>) {
    forall row :: row in rows ==> Attachable(collections, links, row.idItem)
  }

  /** Row `i` is the first, in row order, that cannot be attached. */
  predicate FirstUnattachable(collections: map<int, Shelf>, links: map<int, Link>, rows: seq<ItemRow>, i: int) {
    && 0 <= i < |rows|
    && !Attachable(collections, links, rows[i].idItem)
    && forall j :: 0 <= j < i ==> Attachable(collections, links, rows[j].idItem)
  }

  /** Putting an attachable row in front moves the first unattachable row back by one. */
  lemma FirstUnattachableCons(c: map<int, Shelf>, c': map<int, Shelf>, links: map<int, Link>, rows: seq<ItemRow>, k: int)
    requires |rows| > 0 && c'.Keys == c.Keys && Attachable(c, links, rows[0].idItem)
    requires FirstUnattachable(c', links, rows[1..], k)
    ensures FirstUnattachable(c, links, rows, k + 1)
  {
    forall j | 0 <= j < k + 1
      ensures Attachable(c, links, rows[j].idItem)
    {
      if j > 0 {
        assert rows[j] == rows[1..][j - 1];
      }
    }
    assert rows[k + 1] == rows[1..][k];
  }

  /**
   * A failing item loop fails with the shelf id of the FIRST row, in row
   * order, whose linked shelf was never loaded.
   */
  lemma {:induction false} LoadItemsFailsAtFirst(db: Database, role: Role, rows: seq<ItemRow>, sep: char)
    ensures var r := LoadItems(db, role, rows, sep);
      r.Failure? ==> exists i :: FirstUnattachable(db.collections, db.links, rows, i)
                                 && r.error == UnknownShelf(db.links[rows[i].idItem].shelfId)
    decreases |rows|
  {
    var r := LoadItems(db, role, rows, sep);
    if r.Failure? {
      var step := LoadItem(db, role, rows[0], sep);
      if step.Failure? {
        assert r == Failure(step.error);
        assert FirstUnattachable(db.collections, db.links, rows, 0);
      } else {
        var db' := step.value;
        var tail := rows[1..];
        assert r == LoadItems(db', role, tail, sep);
        assert db'.links == db.links && db'.collections.Keys == db.collections.Keys;
        LoadItemsFailsAtFirst(db', role, tail, sep);
        var k :| FirstUnattachable(db'.collections, db'.links, tail, k)
                 && r.error == UnknownShelf(db'.links[tail[k].idItem].shelfId);
        assert Attachable(db.collections, db.links, rows[0].idItem);
        FirstUnattachableCons(db.collections, db'.collections, db.links, rows, k);
        assert rows[k + 1] == tail[k];
      }
    }
  }

  /**
   * The item loop fails exactly when some row is linked to a shelf that was
   * never loaded, and then with the shelf id of the first such row; a
   * dangling link is not skipped.
   */
  lemma {:induction false} LoadItemsFailsOnUnknownShelf(db: Database, role: Role, rows: seq<ItemRow>, sep: char)
    ensures var r := LoadItems(db, role, rows, sep);
      && (r.Success? <==> AllAttachable(db.collections, db.links, rows))
      && (r.Failure? ==>
            exists i :: FirstUnattachable(db.collections, db.links, rows, i)
                        && r.error == UnknownShelf(db.links[rows[i].idItem].shelfId))
  {
    LoadItemsSucceedsIffAttachable(db, role, rows, sep);
    LoadItemsFailsAtFirst(db, role, rows, sep);
  }

  /** The item loop succeeds exactly when every row can be attached. */
  lemma {:induction false} LoadItemsSucceedsIffAttachable(db: Database, role: Role, rows: seq<ItemRow>, sep: char)
    ensures LoadItems(db, role, rows, sep).Success? <==> AllAttachable(db.collections, db.links, rows)
    decreases |rows|
  {
    if rows != [] {
      var step := LoadItem(db, role, rows[0], sep);
      if step.Success? {
        var db' := step.value;
        assert LoadItems(db, role, rows, sep) == LoadItems(db', role, rows[1..], sep);
        assert db'.links == db.links && db'.collections.Keys == db.collections.Keys;
        LoadItemsSucceedsIffAttachable(db', role, rows[1..], sep);
        assert forall row :: row in rows <==> row == rows[0] || row in rows[1..];
      }
    }
  }

  /** A successful item loop changes no shelf id, link or other volume, nor this volume's identity. */
  lemma {:induction false} LoadItemsFrame(db: Database, role: Role, rows: seq<ItemRow>, sep: char)
    requires LoadItems(db, role, rows, sep).Success?
    ensures Frame(db, LoadItems(db, role, rows, sep).value, role)
    decreases |rows|
  {
    if rows != [] {
      LoadItemsFrame(LoadItem(db, role, rows[0], sep).value, role, rows[1..], sep);
    }
  }

  /** The books `LoadItems` appends to shelf `sid`, in order. */
  function Members(rows: seq<ItemRow>, links: map<int, Link>, sid: int, prefix: string, sep: char): (r: seq<Book>)
    ensures forall b :: b in r ==>
      exists row :: row in rows && row.idItem in links && links[row.idItem].shelfId == sid && b == ItemBook(row, prefix, sep)
    ensures forall row :: row in rows && row.idItem in links && links[row.idItem].shelfId == sid ==>
      ItemBook(row, prefix, sep) in r
    decreases |rows|
  {
    if rows == [] then []
    else
      var head := if rows[0].idItem in links && links[rows[0].idItem].shelfId == sid
                  then [ItemBook(rows[0], prefix, sep)] else [];
      head + Members(rows[1..], links, sid, prefix, sep)
  }

  /**
   * A successful item loop stores every row's book under (uuid, item id) in
   * the global map and under its item id in the volume's map, a later row
   * overwriting an earlier one with the same id, and adds nothing else.
   */
  lemma {:induction false} LoadItemsStoresBooks(db: Database, role: Role, rows: seq<ItemRow>, sep: char)
    requires LoadItems(db, role, rows, sep).Success?
    ensures var r := LoadItems(db, role, rows, sep).value;
      var v := db.Vol(role);
      && r.books == Upsert(db.books, rows, BookKey(v.uuid), BookOf(v.prefixFs, sep))
      && r.Vol(role).books == Upsert(v.books, rows, ItemId, BookOf(v.prefixFs, sep))
    decreases |rows|
  {
    if rows != [] {
      var db' := LoadItem(db, role, rows[0], sep).value;
      LoadItemsStoresBooks(db', role, rows[1..], sep);
    }
  }

  /**
   * A successful item loop appends to each shelf exactly the books whose item
   * id is linked to it, in row order; no shelf is created or dropped.
   */
  lemma {:induction false} LoadItemsFillsShelves(db: Database, role: Role, rows: seq<ItemRow>, sep: char)
    requires LoadItems(db, role, rows, sep).Success?
    ensures var r := LoadItems(db, role, rows, sep).value;
      && r.collections.Keys == db.collections.Keys
      && forall sid :: sid in db.collections ==>
           r.collections[sid] == AddAll(db.collections[sid], Members(rows, db.links, sid, db.Vol(role).prefixFs, sep))
    decreases |rows|
  {
    if rows != [] {
      var prefix := db.Vol(role).prefixFs;
      var db' := LoadItem(db, role, rows[0], sep).value;
      LoadItemsFillsShelves(db', role, rows[1..], sep);
      forall sid | sid in db.collections
        ensures LoadItems(db, role, rows, sep).value.collections[sid]
             == AddAll(db.collections[sid], Members(rows, db.links, sid, prefix, sep))
      {
        var tail := Members(rows[1..], db.links, sid, prefix, sep);
        if rows[0].idItem in db.links && db.links[rows[0].idItem].shelfId == sid {
          var b := ItemBook(rows[0], prefix, sep);
          assert ([b] + tail)[1..] == tail;
        } else {
          assert Members(rows, db.links, sid, prefix, sep) == tail;
        }
      }
    }
  }

  /** The catalog of `role`, if its path names one. */
  predicate HasCatalog(db: Database, role: Role, files: Files) {
    db.Vol(role).path.Some? && db.Vol(role).path.value in files
  }

  /**
   * The part of `init_db` before the item loop: the volume uuid comes from the
   * first `T_UUIDDB` row, the main volume also loads every shelf and every
   * link, and the file rows are selected.
   */
  function OpenCatalog(db: Database, role: Role, files: Files): (r: Result<(Database, seq<ItemRow>), Error>)
    ensures r == Failure(CatalogUnavailable) <==> !HasCatalog(db, role, files)
    ensures r == Failure(CatalogCorrupt) <==> HasCatalog(db, role, files) && files[db.Vol(role).path.value].uuids == []
    ensures r.Success? ==>
      && HasCatalog(db, role, files)
      && files[db.Vol(role).path.value].uuids != []
      && r.value.0.Vol(role) == db.Vol(role).(uuid := files[db.Vol(role).path.value].uuids[0].dbUuid)
      && r.value.0.Vol(Other(role)) == db.Vol(Other(role))
      && r.value.0.books == db.books
      && r.value.1 == SelectFiles(files[db.Vol(role).path.value].items)
      && (role == Card ==> r.value.0.links == db.links && r.value.0.collections == db.collections)
      && (role == Main ==>
            && r.value.0.links == Upsert(db.links, files[db.main.path.value].links, LinkItem, LinkOf)
            && r.value.0.collections == Upsert(db.collections, files[db.main.path.value].shelves, ShelfId, FromRow))
  {
    var v := db.Vol(role);
    if !HasCatalog(db, role, files) then Failure(CatalogUnavailable)
    else
      var cat := files[v.path.value];
      if cat.uuids == [] then Failure(CatalogCorrupt)
      else
        var db1 := db.WithVol(role, v.(uuid := cat.uuids[0].dbUuid));
        var db2 :=
          if role == Main
          then db1.(collections := Upsert(db1.collections, cat.shelves, ShelfId, FromRow),
                    links := Upsert(db1.links, cat.links, LinkItem, LinkOf))
          else db1;
        Success((db2, SelectFiles(cat.items)))
  }

  /**
   * `init_db(role)`: loads one volume's catalog into the state. A missing
   * catalog and a catalog without a uuid row fail before anything is read;
   * the item loop can only fail on an unknown shelf.
   */
  function InitDb(db: Database, role: Role, files: Files, sep: char): (r: Result<Database, Error>)
    ensures r == Failure(CatalogUnavailable) <==> !HasCatalog(db, role, files)
    ensures r == Failure(CatalogCorrupt) <==> HasCatalog(db, role, files) && files[db.Vol(role).path.value].uuids == []
    ensures r.Success? ==>
      && HasCatalog(db, role, files)
      && files[db.Vol(role).path.value].uuids != []
      && r.value.Vol(role).uuid == files[db.Vol(role).path.value].uuids[0].dbUuid
      && r.value.Vol(role).path == db.Vol(role).path
      && r.value.Vol(role).prefixFs == db.Vol(role).prefixFs
      && r.value.Vol(Other(role)) == db.Vol(Other(role))
    ensures r.Success? && role == Card ==> r.value.links == db.links && r.value.collections.Keys == db.collections.Keys
    ensures var oc := OpenCatalog(db, role, files);
      r.Success? <==> oc.Success? && AllAttachable(oc.value.0.collections, oc.value.0.links, oc.value.1)
    ensures r.Success? ==>
      var oc := OpenCatalog(db, role, files);
      r.value.links == oc.value.0.links && r.value.collections.Keys == oc.value.0.collections.Keys
  {
    match OpenCatalog(db, role, files)
    case Failure(e) => Failure(e)
    case Success((db', rows)) =>
      LoadItemsFailsOnUnknownShelf(db', role, rows, sep);
      var r := LoadItems(db', role, rows, sep);
      if r.Success? then
        LoadItemsFrame(db', role, rows, sep);
        r
      else
        r
  }

  /**
   * After a successful `init_db`, the volume's map holds the books of the
   * file rows and nothing else new, each book under its item id and in the
   * global map under (uuid, item id); directories and other rows add nothing.
   */
  lemma InitDbLoadsOnlyFiles(db: Database, role: Role, files: Files, sep: char)
    requires InitDb(db, role, files, sep).Success?
    ensures var r := InitDb(db, role, files, sep).value;
      var cat := files[db.Vol(role).path.value];
      var uuid := cat.uuids[0].dbUuid;
      var prefix := db.Vol(role).prefixFs;
      && r.Vol(role).books == Upsert(db.Vol(role).books, SelectFiles(cat.items), ItemId, BookOf(prefix, sep))
      && r.books == Upsert(db.books, SelectFiles(cat.items), BookKey(uuid), BookOf(prefix, sep))
      && (forall id :: id in r.Vol(role).books <==>
            id in db.Vol(role).books || exists row :: row in cat.items && row.fileType == FileType && row.idItem == id)
  {
    var oc := OpenCatalog(db, role, files);
    var (db', rows) := oc.value;
    assert InitDb(db, role, files, sep) == LoadItems(db', role, rows, sep);
    LoadItemsStoresBooks(db', role, rows, sep);
    FileIds(files[db.Vol(role).path.value].items);
  }

  /** The item ids of the selected rows are those of the file rows. */
  lemma FileIds(items: seq<ItemRow>)
    ensures forall id :: id in KeysOf(SelectFiles(items), ItemId) <==>
      exists row :: row in items && row.fileType == FileType && row.idItem == id
  {
    var rows := SelectFiles(items);
    forall id | id in KeysOf(rows, ItemId)
      ensures exists row :: row in items && row.fileType == FileType && row.idItem == id
    {
      var i :| 0 <= i < |rows| && ItemId(rows[i]) == id;
      assert rows[i] in rows;
    }
    forall id | exists row :: row in items && row.fileType == FileType && row.idItem == id
      ensures id in KeysOf(rows, ItemId)
    {
      var row :| row in items && row.fileType == FileType && row.idItem == id;
      assert row in rows;
      var i :| 0 <= i < |rows| && rows[i] == row;
      assert ItemId(rows[i]) == id;
    }
  }

  /**
   * `init_db('main')` keeps, per item id, only the last link row, loads every
   * shelf row (a later row with the same id replacing an earlier one), and
   * appends to each shelf exactly the books of file rows linked to it, in row
   * order.
   */
  lemma InitDbMainShelves(db: Database, files: Files, sep: char)
    requires InitDb(db, Main, files, sep).Success?
    ensures var r := InitDb(db, Main, files, sep).value;
      var cat := files[db.main.path.value];
      var shelves := Upsert(db.collections, cat.shelves, ShelfId, FromRow);
      && r.links == Upsert(db.links, cat.links, LinkItem, LinkOf)
      && r.collections.Keys == db.collections.Keys + KeysOf(cat.shelves, ShelfId)
      && forall sid :: sid in shelves ==>
           r.collections[sid] == AddAll(shelves[sid], Members(SelectFiles(cat.items), r.links, sid, db.main.prefixFs, sep))
  {
    var (db', rows) := OpenCatalog(db, Main, files).value;
    var r := InitDb(db, Main, files, sep).value;
    assert r == LoadItems(db', Main, rows, sep).value;
    LoadItemsFrame(db', Main, rows, sep);
    LoadItemsFillsShelves(db', Main, rows, sep);
    assert db'.Vol(Main).prefixFs == db.main.prefixFs;
  }

  /** Python truthiness of the card path: `None` and `''` mean no card. */
  predicate CardGiven(pathCard: Option<string>) {
    pathCard.Some? && pathCard.value != []
  }

  /** The shelves a main catalog defines, loaded into an empty state. */
  function MainShelves(cat: Catalog): map<int, Shelf> {
    Upsert(map[], cat.shelves, ShelfId, FromRow)
  }

  /** The links a main catalog defines, loaded into an empty state. */
  function MainLinks(cat: Catalog): map<int, Link> {
    Upsert(map[], cat.links, LinkItem, LinkOf)
  }

  /**
   * A catalog loads against these shelves and links: it has a uuid row and
   * every file row's item can be attached.
   */
  predicate CatalogLoads(cat: Catalog, collections: map<int, Shelf>, links: map<int, Link>) {
    cat.uuids != [] && AllAttachable(collections, links, SelectFiles(cat.items))
  }

  /** Attaching looks only at which shelf ids are loaded, not at their contents. */
  lemma AttachableByKeys(c1: map<int, Shelf>, c2: map<int, Shelf>, links: map<int, Link>, rows: seq<ItemRow>)
    requires c1.Keys == c2.Keys
    ensures AllAttachable(c1, links, rows) <==> AllAttachable(c2, links, rows)
  {
    forall id
      ensures Attachable(c1, links, id) <==> Attachable(c2, links, id)
    {
      if id in links {
        assert links[id].shelfId in c1 <==> links[id].shelfId in c1.Keys;
        assert links[id].shelfId in c2 <==> links[id].shelfId in c2.Keys;
      }
    }
  }

  /**
   * `BookeenDatabase(path_main, path_card)`: loads the main catalog, then the
   * card catalog when a card path is given.
   */
  function Open(pathMain: string, pathCard: Option<string>, files: Files, sep: char): (r: Result<Database, Error>)
    ensures pathMain !in files ==> r == Failure(CatalogUnavailable)
    ensures pathMain in files && files[pathMain].uuids == [] ==> r == Failure(CatalogCorrupt)
    ensures r.Success? ==>
      && pathMain in files && files[pathMain].uuids != []
      && r.value.main.uuid == files[pathMain].uuids[0].dbUuid
      && r.value.main.path == Some(pathMain) && r.value.main.prefixFs == MainPrefix
    ensures r.Success? && CardGiven(pathCard) ==>
      && pathCard.value in files && files[pathCard.value].uuids != []
      && r.value.card.uuid == files[pathCard.value].uuids[0].dbUuid
      && r.value.card.path == pathCard && r.value.card.prefixFs == CardPrefix
    ensures r.Success? && !CardGiven(pathCard) ==> r.value.card == Volume("", pathCard, CardPrefix, map[])
    ensures r.Success? <==>
      && pathMain in files
      && CatalogLoads(files[pathMain], MainShelves(files[pathMain]), MainLinks(files[pathMain]))
      && (CardGiven(pathCard) ==>
            pathCard.value in files && CatalogLoads(files[pathCard.value], MainShelves(files[pathMain]), MainLinks(files[pathMain])))
  {
    var db0 := Fresh(pathMain, pathCard);
    match InitDb(db0, Main, files, sep)
    case Failure(e) => Failure(e)
    case Success(db) =>
      var main := files[pathMain];
      assert OpenCatalog(db0, Main, files).value.0.collections == MainShelves(main);
      assert db.links == MainLinks(main) && db.collections.Keys == MainShelves(main).Keys;
      if CardGiven(pathCard) then
        var r := InitDb(db, Card, files, sep);
        assert db.card == db0.card;
        if pathCard.value in files then
          AttachableByKeys(db.collections, MainShelves(main), db.links, SelectFiles(files[pathCard.value].items));
          r
        else
          r
      else
        Success(db)
  }

  /** A main catalog with one shelf, one link and one book file. */
  function FavoritesCatalog(): Catalog {
    Catalog(
      [UuidRow("muse-0001")],
      [ShelfRow(1, Some("Favorites"), Some(0))],
      [LinkRow(10, 1, "muse-0001")],
      [ItemRow(10, FileType, MainPrefix + "book.epub", Some("Book"), Some(1), Some(5), None)])
  }

  /** The state after `FavoritesCatalog`'s uuid, shelf and link tables are read. */
  function FavoritesOpened(): Database {
    var db0 := Fresh("library.main.sqlite", None);
    db0.(main := db0.main.(uuid := "muse-0001"),
         collections := map[1 := FromRow(FavoritesCatalog().shelves[0])],
         links := map[10 := Link(1, "muse-0001")])
  }

  /** Opening that catalog reads its tables and selects its one file row. */
  lemma FavoritesOpens()
    ensures OpenCatalog(Fresh("library.main.sqlite", None), Main, map["library.main.sqlite" := FavoritesCatalog()])
         == Success((FavoritesOpened(), [FavoritesCatalog().items[0]]))
  {
    var cat := FavoritesCatalog();
    assert SelectFiles(cat.items) == [cat.items[0]];
    assert Upsert(map[], cat.shelves, ShelfId, FromRow) == map[1 := FromRow(cat.shelves[0])];
    assert Upsert(map[], cat.links, LinkItem, LinkOf) == map[10 := Link(1, "muse-0001")];
  }

  /** The item loop over that one row stores the book and appends it to shelf 1. */
  lemma FavoritesItemLoads()
    ensures var item := FavoritesCatalog().items[0];
      var b := ItemBook(item, MainPrefix, Slash);
      var r := LoadItems(FavoritesOpened(), Main, [item], Slash);
      && r.Success?
      && r.value.books == map[("muse-0001", 10) := b]
      && r.value.main.books == map[10 := b]
      && 1 in r.value.collections
      && r.value.collections[1] == FromRow(FavoritesCatalog().shelves[0]).(books := [b])
  {
    var item := FavoritesCatalog().items[0];
    var db1 := FavoritesOpened();
    var db2 := LoadItem(db1, Main, item, Slash).value;
    assert LoadItems(db1, Main, [item], Slash) == Success(db2) by {
      assert [item][1..] == [];
    }
  }

  /** The book built for that catalog's one item row. */
  lemma FavoritesBook()
    ensures ItemBook(FavoritesCatalog().items[0], MainPrefix, Slash)
         == Book("Book", "book.epub", "book.epub", true, Some(5), None)
  {
    var item := FavoritesCatalog().items[0];
    assert Drop(item.internalUri, |MainPrefix|) == "book.epub" by {
      assert item.internalUri[|MainPrefix|..] == "book.epub";
    }
  }

  /** Opening that catalog alone amounts to the item loop after its tables are read. */
  lemma FavoritesOpenLoads()
    ensures Open("library.main.sqlite", None, map["library.main.sqlite" := FavoritesCatalog()], Slash)
         == LoadItems(FavoritesOpened(), Main, [FavoritesCatalog().items[0]], Slash)
  {
    var files := map["library.main.sqlite" := FavoritesCatalog()];
    FavoritesOpens();
    assert InitDb(Fresh("library.main.sqlite", None), Main, files, Slash)
        == LoadItems(FavoritesOpened(), Main, [FavoritesCatalog().items[0]], Slash);
    assert !CardGiven(None);
  }

  /**
   * Loading that catalog gives one book, "book.epub", finished at page 5,
   * stored under its key and appended to the writable shelf 1.
   */
  lemma FavoritesLoad()
    ensures var r := Open("library.main.sqlite", None, map["library.main.sqlite" := FavoritesCatalog()], Slash);
      && r.Success?
      && r.value.books.Keys == {("muse-0001", 10)}
      && r.value.main.books.Keys == {10}
      && r.value.books[("muse-0001", 10)] == r.value.main.books[10]
      && r.value.main.books[10].lpath == "book.epub"
      && r.value.main.books[10].title == "Book"
      && r.value.main.books[10].finished
      && r.value.main.books[10].currentPage == Some(5)
      && 1 in r.value.collections && !r.value.collections[1].readonly
      && GetBooks(r.value.collections[1]) == [r.value.main.books[10]]
  {
    FavoritesOpenLoads();
    FavoritesItemLoads();
    FavoritesBook();
    var b := Book("Book", "book.epub", "book.epub", true, Some(5), None);
    var loaded := LoadItems(FavoritesOpened(), Main, [FavoritesCatalog().items[0]], Slash).value;
    assert loaded.books == map[("muse-0001", 10) := b];
    assert loaded.main.books == map[10 := b];
    assert loaded.collections[1] == Shelf(Some("Favorites"), 1, false, [b]);
  }
}

=== FILE: matching.dfy ===
/** Orphan detection (`BookeenDatabase.match`). */
module Matching {
  import opened Wrappers
  import opened Books
  import opened Loader
  import opened Sets

  /** A book of the host library, as far as matching looks at it. */
  datatype HostBook = HostBook(lpath: string, id: int)

  /** The volume `match` examines: `None` is the main memory, `'carda'` the card. */
  function VolumeFor(oncard: Option<string>): (r: Option<Role>)
    ensures r == Some(Main) <==> oncard.None?
    ensures r == Some(Card) <==> oncard == Some("carda")
    ensures r.None? <==> oncard.Some? && oncard.value != "carda"
  {
    if oncard.None? then Some(Main)
    else if oncard.value == "carda" then Some(Card)
    else None
  }

  /** Some host book has exactly this relative path. */
  ghost predicate Known(b: Book, host: seq<HostBook>) {
    exists h :: h in host && h.lpath == b.lpath
  }

  /** The item ids of the device books that no host book matches. */
  ghost function Orphans(books: map<int, Book>, host: seq<HostBook>): set<int> {
    set id | id in books && !Known(books[id], host)
  }

  /**
   * `match(oncard, calibre_books)`: for an unknown volume name nothing is
   * examined (`None`); otherwise the result is the set of device books the
   * loop reports as not found in the host library.
   */
  method Match(db: Database, oncard: Option<string>, host: seq<HostBook>) returns (orphans: Option<set<int>>)
    ensures orphans.None? <==> VolumeFor(oncard).None?
    ensures orphans.Some? ==> orphans.value == Orphans(db.Vol(VolumeFor(oncard).value).books, host)
  {
    var role := VolumeFor(oncard);
    if role.None? {
      return None;
    }
    var books := db.Vol(role.value).books;
    var todo := books.Keys;
    var found: set<int> := {};
    while todo != {}
      invariant todo <= books.Keys
      invariant forall x :: x in found <==> x in books && x !in todo && !Known(books[x], host)
      decreases todo
    {
      ghost var chosen := Pick(todo);  // shows the choice below can be made
      var id :| id in todo;
      var seen := false;
      var j := 0;
      while j < |host|
        invariant 0 <= j <= |host|
        invariant seen <==> exists k :: 0 <= k < j && host[k].lpath == books[id].lpath
      {
        if books[id].lpath == host[j].lpath {
          seen := true;
        }
        j := j + 1;
      }
      if !seen {
        found := found + {id};
      }
      todo := todo - {id};
    }
    assert forall x :: x in found <==> x in Orphans(books, host);
    assert found == Orphans(books, host);
    return Some(found);
  }

  /** More host books can only make fewer orphans. */
  lemma OrphansShrink(books: map<int, Book>, host: seq<HostBook>, more: seq<HostBook>)
    ensures Orphans(books, host + more) <= Orphans(books, host)
  {
    forall id | id in Orphans(books, host + more)
      ensures id in Orphans(books, host)
    {
      assert forall h :: h in host ==> h in host + more;
    }
  }

  /**
   * With the catalog of `FavoritesLoad`, a host library holding "book.epub"
   * leaves no orphan, and an empty one makes item 10 an orphan.
   */
  lemma FavoritesMatch()
    ensures var r := Open("library.main.sqlite", None, map["library.main.sqlite" := FavoritesCatalog()], Slash);
      && r.Success?
      && Orphans(r.value.main.books, [HostBook("book.epub", 42)]) == {}
      && Orphans(r.value.main.books, []) == {10}
  {
    FavoritesLoad();
    var r := Open("library.main.sqlite", None, map["library.main.sqlite" := FavoritesCatalog()], Slash);
    var books := r.value.main.books;
    assert Known(books[10], [HostBook("book.epub", 42)]) by {
      assert HostBook("book.epub", 42) in [HostBook("book.epub", 42)];
    }
  }
}

=== FILE: script.dfy ===
/**
 * The earlier, stand-alone snapshot of the driver (`test.py`): its book
 * constructor, its loader, and the command that closes barely-opened books.
 */
module Script {
  import opened Wrappers
  import opened Catalog
  import opened Books
  import opened Shelves
  import opened Loader
  import opened Closing

  /** This snapshot's title for a book without one. */
  const Untitled: string := "No title"

  /**
   * This snapshot's `Book(prefix, lpath, title, ...)` without its size
   * assertion, which is how the later driver builds books.
   */
  function ScriptBook(
    prefix: string, lpath: string, title: Option<string>,
    finished: bool, currentPage: Option<int>, size: Option<int>, sep: char): (b: Book)
    ensures |b.title| > 0
    ensures title.Some? && |title.value| > 0 ==> b.title == title.value
    ensures title.None? || |title.value| == 0 ==> b.title == Untitled
    ensures b.finished == finished && b.currentPage == currentPage && b.size == size
    ensures sep != Backslash ==> b.lpath == lpath
    ensures sep == Backslash ==> Backslash !in b.lpath && |b.lpath| == |lpath|
    ensures b.lpath == NewBook(prefix, lpath, title, finished, currentPage, size, sep).lpath
    ensures b.path == NewBook(prefix, lpath, title, finished, currentPage, size, sep).path
  {
    NewBook(prefix, lpath, title, finished, currentPage, size, sep).(title := TitleOr(title, Untitled))
  }

  /** This snapshot's `Book(...)` as written: `assert isinstance(size, int)`. */
  function ScriptBookAsWritten(
    prefix: string, lpath: string, title: Option<string>,
    finished: bool, currentPage: Option<int>, size: Option<int>, sep: char): (r: Result<Book, Error>)
    ensures r.Failure? <==> size.None?
    ensures r.Failure? ==> r.error == AssertionFailed
    ensures r.Success? ==> r.value == ScriptBook(prefix, lpath, title, finished, currentPage, size, sep)
  {
    if size.None? then Failure(AssertionFailed)
    else Success(ScriptBook(prefix, lpath, title, finished, currentPage, size, sep))
  }

  /** The state this snapshot starts from: no mount prefixes. */
  function ScriptFresh(pathMain: string, pathCard: Option<string>): (db: Database)
    ensures db.main.path == Some(pathMain) && db.card.path == pathCard
    ensures db.main.prefixFs == [] && db.card.prefixFs == []
    ensures db.main.uuid == "" && db.card.uuid == ""
    ensures db.main.books == map[] && db.card.books == map[] && db.books == map[]
    ensures db.collections == map[] && db.links == map[]
  {
    Database(
      Volume("", Some(pathMain), [], map[]),
      Volume("", pathCard, [], map[]),
      map[], map[], map[])
  }

  /** The book this snapshot's loader builds for an item row: no path, no size. */
  function RowBook(row: ItemRow, sep: char): (b: Book)
    ensures b.lpath == [] && b.path == [] && b.size.None?
    ensures b.finished <==> Truthy(row.isLastPage)
    ensures b.currentPage == row.currentPage
    ensures row.title.Some? && |row.title.value| > 0 ==> b.title == row.title.value
    ensures row.title.None? || |row.title.value| == 0 ==> b.title == Untitled
  {
    ScriptBook([], [], row.title, Truthy(row.isLastPage), row.currentPage, None, sep)
  }

  function RowBookOf(sep: char): ItemRow -> Book {
    (row: ItemRow) => RowBook(row, sep)
  }

  /**
   * One turn of this snapshot's item loop, as written, for books built with
   * `size` (the loop itself passes none).
   */
  function LoadItemAsWritten(db: Database, uuid: string, row: ItemRow, size: Option<int>, sep: char): (r: Result<Database, Error>)
    ensures r.Success? <==> size.Some? && Attachable(db.collections, db.links, row.idItem)
    ensures size.None? ==> r == Failure(AssertionFailed)
    ensures size.Some? && r.Failure? ==> r.error == UnknownShelf(db.links[row.idItem].shelfId)
    ensures r.Success? ==> r.value.main == db.main && r.value.card == db.card && r.value.links == db.links
  {
    var b :- ScriptBookAsWritten([], [], row.title, Truthy(row.isLastPage), row.currentPage, size, sep);
    var collections :- Attach(db.collections, db.links, row.idItem, b);
    Success(db.(collections := collections, books := db.books[(uuid, row.idItem) := b]))
  }

  function LoadItemsAsWritten(db: Database, uuid: string, rows: seq<ItemRow>, size: Option<int>, sep: char): (r: Result<Database, Error>)
    ensures size.None? ==> r == if rows == [] then Success(db) else Failure(AssertionFailed)
    ensures r.Failure? ==> r.error == AssertionFailed || r.error.UnknownShelf?
    decreases |rows|
  {
    if rows == [] then Success(db)
    else
      var db' :- LoadItemAsWritten(db, uuid, rows[0], size, sep);
      LoadItemsAsWritten(db', uuid, rows[1..], size, sep)
  }

  /** As written, the item loop fails on the first file row, whatever it holds. */
  lemma AsWrittenRejectsEveryBook(db: Database, uuid: string, rows: seq<ItemRow>, sep: char)
    ensures LoadItemsAsWritten(db, uuid, rows, None, sep) == if rows == [] then Success(db) else Failure(AssertionFailed)
  {
  }

  /** One turn of this snapshot's item loop, with the size assertion dropped. */
  function ScriptLoadItem(db: Database, uuid: string, row: ItemRow, sep: char): (r: Result<Database, Error>)
    ensures r.Success? <==> Attachable(db.collections, db.links, row.idItem)
    ensures r.Failure? ==> r.error == UnknownShelf(db.links[row.idItem].shelfId)
    ensures r.Success? ==>
      && r.value.links == db.links && r.value.collections.Keys == db.collections.Keys
      && r.value.main == db.main && r.value.card == db.card
    ensures r.Success? ==>
      var b := RowBook(row, sep);
      && r.value.books == db.books[(uuid, row.idItem) := b]
      && forall sid :: sid in db.collections ==>
           r.value.collections[sid] ==
             (if row.idItem in db.links && db.links[row.idItem].shelfId == sid
              then AddBook(db.collections[sid], b) else db.collections[sid])
  {
    var b := RowBook(row, sep);
    var collections :- Attach(db.collections, db.links, row.idItem, b);
    Success(db.(collections := collections, books := db.books[(uuid, row.idItem) := b]))
  }

  function ScriptLoadItems(db: Database, uuid: string, rows: seq<ItemRow>, sep: char): (r: Result<Database, Error>)
    ensures r.Failure? ==> r.error.UnknownShelf?
    ensures r.Success? ==> r.value.main == db.main && r.value.card == db.card
    decreases |rows|
  {
    if rows == [] then Success(db)
    else
      var db' :- ScriptLoadItem(db, uuid, rows[0], sep);
      ScriptLoadItems(db', uuid, rows[1..], sep)
  }

  /**
   * With the assertion dropped the loop succeeds exactly when no row is
   * linked to an unknown shelf, and then stores every row's book, with an
   * empty relative path, under (uuid, item id); the volumes are untouched.
   */
  lemma {:induction false} LoadItemsStoresEveryFile(db: Database, uuid: string, rows: seq<ItemRow>, sep: char)
    ensures var r := ScriptLoadItems(db, uuid, rows, sep);
      && (r.Success? <==> forall row :: row in rows ==> Attachable(db.collections, db.links, row.idItem))
      && (r.Success? ==>
            && r.value.books == Upsert(db.books, rows, BookKey(uuid), RowBookOf(sep))
            && r.value.main == db.main && r.value.card == db.card
            && r.value.links == db.links && r.value.collections.Keys == db.collections.Keys)
    decreases |rows|
  {
    if rows != [] {
      var step := ScriptLoadItem(db, uuid, rows[0], sep);
      if step.Success? {
        var db' := step.value;
        assert ScriptLoadItems(db, uuid, rows, sep) == ScriptLoadItems(db', uuid, rows[1..], sep);
        LoadItemsStoresEveryFile(db', uuid, rows[1..], sep);
        assert forall row :: row in rows <==> row == rows[0] || row in rows[1..];
      }
    }
  }

  /** This snapshot's `init_db`, as written and with the assertion dropped. */
  function InitDbAsWritten(db: Database, role: Role, files: Files, sep: char): (r: Result<Database, Error>)
    ensures r == Failure(CatalogUnavailable) <==> !HasCatalog(db, role, files)
    ensures r == Failure(CatalogCorrupt) <==> HasCatalog(db, role, files) && files[db.Vol(role).path.value].uuids == []
    ensures r == Failure(AssertionFailed) <==>
      HasCatalog(db, role, files) && files[db.Vol(role).path.value].uuids != []
      && SelectFiles(files[db.Vol(role).path.value].items) != []
    ensures r.Success? ==> SelectFiles(files[db.Vol(role).path.value].items) == []
  {
    var (db', rows) :- OpenCatalog(db, role, files);
    LoadItemsAsWritten(db', db'.Vol(role).uuid, rows, None, sep)
  }

  function ScriptInitDb(db: Database, role: Role, files: Files, sep: char): (r: Result<Database, Error>)
    ensures r == Failure(CatalogUnavailable) <==> !HasCatalog(db, role, files)
    ensures r == Failure(CatalogCorrupt) <==> HasCatalog(db, role, files) && files[db.Vol(role).path.value].uuids == []
    ensures r.Success? ==>
      && HasCatalog(db, role, files)
      && files[db.Vol(role).path.value].uuids != []
      && r.value.Vol(role).uuid == files[db.Vol(role).path.value].uuids[0].dbUuid
      && r.value.Vol(Other(role)) == db.Vol(Other(role))
    ensures var oc := OpenCatalog(db, role, files);
      r.Success? <==> oc.Success? && AllAttachable(oc.value.0.collections, oc.value.0.links, oc.value.1)
    ensures r.Success? ==>
      var oc := OpenCatalog(db, role, files);
      r.value.links == oc.value.0.links && r.value.collections.Keys == oc.value.0.collections.Keys
    ensures r.Success? ==>
      var cat := files[db.Vol(role).path.value];
      r.value.books == Upsert(db.books, SelectFiles(cat.items), BookKey(cat.uuids[0].dbUuid), RowBookOf(sep))
  {
    match OpenCatalog(db, role, files)
    case Failure(e) => Failure(e)
    case Success((db', rows)) =>
      LoadItemsStoresEveryFile(db', db'.Vol(role).uuid, rows, sep);
      ScriptLoadItems(db', db'.Vol(role).uuid, rows, sep)
  }

  /** This snapshot's `BookeenDatabase(path_main, path_card)`, both ways. */
  function OpenAsWritten(pathMain: string, pathCard: Option<string>, files: Files, sep: char): (r: Result<Database, Error>)
    ensures pathMain !in files ==> r == Failure(CatalogUnavailable)
    ensures pathMain in files && files[pathMain].uuids == [] ==> r == Failure(CatalogCorrupt)
    ensures pathMain in files && files[pathMain].uuids != [] && SelectFiles(files[pathMain].items) != [] ==>
      r == Failure(AssertionFailed)
    ensures r.Success? ==> pathMain in files && SelectFiles(files[pathMain].items) == []
  {
    var db :- InitDbAsWritten(ScriptFresh(pathMain, pathCard), Main, files, sep);
    if CardGiven(pathCard) then InitDbAsWritten(db, Card, files, sep) else Success(db)
  }

  function ScriptOpen(pathMain: string, pathCard: Option<string>, files: Files, sep: char): (r: Result<Database, Error>)
    ensures pathMain !in files ==> r == Failure(CatalogUnavailable)
    ensures pathMain in files && files[pathMain].uuids == [] ==> r == Failure(CatalogCorrupt)
    ensures r.Success? ==>
      && pathMain in files && files[pathMain].uuids != []
      && r.value.main.uuid == files[pathMain].uuids[0].dbUuid && r.value.main.path == Some(pathMain)
    ensures r.Success? && CardGiven(pathCard) ==>
      && pathCard.value in files && files[pathCard.value].uuids != []
      && r.value.card.uuid == files[pathCard.value].uuids[0].dbUuid
    ensures r.Success? && !CardGiven(pathCard) ==> r.value.card == Volume("", pathCard, [], map[])
    ensures r.Success? <==>
      && pathMain in files
      && CatalogLoads(files[pathMain], MainShelves(files[pathMain]), MainLinks(files[pathMain]))
      && (CardGiven(pathCard) ==>
            pathCard.value in files && CatalogLoads(files[pathCard.value], MainShelves(files[pathMain]), MainLinks(files[pathMain])))
  {
    var db0 := ScriptFresh(pathMain, pathCard);
    match ScriptInitDb(db0, Main, files, sep)
    case Failure(e) => Failure(e)
    case Success(db) =>
      var main := files[pathMain];
      assert OpenCatalog(db0, Main, files).value.0.collections == MainShelves(main);
      assert db.links == MainLinks(main) && db.collections.Keys == MainShelves(main).Keys;
      if CardGiven(pathCard) then
        var r := ScriptInitDb(db, Card, files, sep);
        assert db.card == db0.card;
        if pathCard.value in files then
          AttachableByKeys(db.collections, MainShelves(main), db.links, SelectFiles(files[pathCard.value].items));
          r
        else
          r
      else
        Success(db)
  }

  /** As written, the stand-alone script cannot load the one-book catalog. */
  lemma FavoritesAsWritten()
    ensures OpenAsWritten("library.main.sqlite", None, map["library.main.sqlite" := FavoritesCatalog()], Slash)
         == Failure(AssertionFailed)
  {
    var files := map["library.main.sqlite" := FavoritesCatalog()];
    var oc := OpenCatalog(ScriptFresh("library.main.sqlite", None), Main, files);
    assert oc.Success? && oc.value.1 == [FavoritesCatalog().items[0]] by {
      assert SelectFiles(FavoritesCatalog().items) == [FavoritesCatalog().items[0]];
    }
    AsWrittenRejectsEveryBook(oc.value.0, oc.value.0.main.uuid, oc.value.1, Slash);
  }

  /** With the assertion dropped, the script loads the book with an empty path. */
  lemma FavoritesFixed()
    ensures var r := ScriptOpen("library.main.sqlite", None, map["library.main.sqlite" := FavoritesCatalog()], Slash);
      && r.Success?
      && ("muse-0001", 10) in r.value.books
      && r.value.books[("muse-0001", 10)].lpath == []
      && r.value.books[("muse-0001", 10)].title == "Book"
      && r.value.books[("muse-0001", 10)].currentPage == Some(5)
  {
    var files := map["library.main.sqlite" := FavoritesCatalog()];
    var cat := FavoritesCatalog();
    var item := cat.items[0];
    var oc := OpenCatalog(ScriptFresh("library.main.sqlite", None), Main, files);
    assert oc.Success? && oc.value.1 == [item] && oc.value.0.main.uuid == "muse-0001" by {
      assert SelectFiles(cat.items) == [item];
    }
    var db' := oc.value.0;
    assert db'.links == map[10 := Link(1, "muse-0001")] by {
      assert Upsert(map[], cat.links, LinkItem, LinkOf) == map[10 := Link(1, "muse-0001")];
    }
    assert db'.collections == map[1 := FromRow(cat.shelves[0])] by {
      assert Upsert(map[], cat.shelves, ShelfId, FromRow) == map[1 := FromRow(cat.shelves[0])];
    }
    var db2 := ScriptLoadItem(db', "muse-0001", item, Slash).value;
    assert ScriptLoadItems(db', "muse-0001", [item], Slash) == Success(db2) by {
      assert [item][1..] == [];
    }
    assert db2.books[("muse-0001", 10)] == RowBook(item, Slash);
  }

  /**
   * `if args.to_close:` and `not b.finished and 0 <= b.current_page <=
   * args.to_close`; in Python 2 `0 <= None` is false.
   */
  predicate ShouldClose(b: Book, toClose: Option<int>) {
    && toClose.Some? && toClose.value != 0
    && !b.finished
    && b.currentPage.Some? && 0 <= b.currentPage.value <= toClose.value
  }

  /**
   * The books the command closes: unfinished ones whose current page lies in
   * `[0, to_close]`, none when `to_close` is absent or not positive.
   */
  function Selection(books: map<Key, Book>, toClose: Option<int>): (r: set<Key>)
    ensures forall k :: k in r <==>
      && k in books && toClose.Some? && toClose.value > 0
      && !books[k].finished
      && books[k].currentPage.Some? && 0 <= books[k].currentPage.value <= toClose.value
    ensures toClose.None? || toClose.value <= 0 ==> r == {}
  {
    set k | k in books && ShouldClose(books[k], toClose)
  }

  /** The item rows after every id of `ids` has been closed. */
  function ResetAll(items: seq<ItemRow>, ids: set<int>): (r: seq<ItemRow>)
    ensures |r| == |items|
    ensures forall i :: 0 <= i < |items| ==> r[i] == if items[i].idItem in ids then ResetRow(items[i]) else items[i]
  {
    seq(|items|, i requires 0 <= i < |items| => if items[i].idItem in ids then ResetRow(items[i]) else items[i])
  }

  /** The item ids among `keys` whose volume is stored at `path`. */
  function IdsAt(db: Database, keys: set<Key>, path: string): set<int> {
    set k | k in keys && GetDatabasePath(db, k.0) == Some(path) :: k.1
  }

  /** The catalog files once every book of `keys` has been closed. */
  function ClosedState(db: Database, files: Files, keys: set<Key>): Files {
    map p | p in files :: files[p].(items := ResetAll(files[p].items, IdsAt(db, keys, p)))
  }

  /** Closing nothing leaves the files as they are. */
  lemma ClosedNothing(db: Database, files: Files)
    ensures ClosedState(db, files, {}) == files
  {
    forall p | p in files
      ensures ClosedState(db, files, {})[p] == files[p]
    {
      assert IdsAt(db, {}, p) == {};
      assert ResetAll(files[p].items, {}) == files[p].items;
    }
  }

  /** Closing one more book moves from one closed state to the next. */
  lemma CloseStep(db: Database, files: Files, done: set<Key>, key: Key)
    requires Resolves(db, files, key)
    ensures CloseBook(db, ClosedState(db, files, done), key) == Success(ClosedState(db, files, done + {key}))
  {
    var cur := ClosedState(db, files, done);
    var next := ClosedState(db, files, done + {key});
    var path := GetDatabasePath(db, key.0).value;
    var r := CloseBook(db, cur, key).value;
    forall p | p in files
      ensures r[p] == next[p]
    {
      if p == path {
        assert IdsAt(db, done + {key}, p) == IdsAt(db, done, p) + {key.1};
        var items := ResetItem(ResetAll(files[p].items, IdsAt(db, done, p)), key.1);
        assert items == ResetAll(files[p].items, IdsAt(db, done + {key}, p));
      } else {
        assert IdsAt(db, done + {key}, p) == IdsAt(db, done, p);
      }
    }
    assert r == next;
  }

  /**
   * The `__main__` close loop: closes every selected book, in the order the
   * books map yields them, stopping at the first that cannot be closed.
   * The files then hold exactly the books closed so far as closed, and the
   * loop stops early exactly when some selected book has no catalog.
   */
  method CloseSelected(db: Database, files: Files, toClose: Option<int>)
    returns (out: Files, closed: set<Key>, err: Option<Error>)
    ensures closed <= Selection(db.books, toClose)
    ensures out == ClosedState(db, files, closed)
    ensures err.None? <==> forall k :: k in Selection(db.books, toClose) ==> Resolves(db, files, k)
    ensures err.None? ==> closed == Selection(db.books, toClose)
  {
    var chosen := Selection(db.books, toClose);
    var todo := chosen;
    closed := {};
    out := files;
    ClosedNothing(db, files);
    while todo != {}
      invariant todo <= chosen
      invariant closed == chosen - todo
      invariant out == ClosedState(db, files, closed)
      invariant out.Keys == files.Keys
      invariant forall k :: k in closed ==> Resolves(db, files, k)
      decreases todo
    {
      var key :| key in todo;
      var r := CloseBook(db, out, key);
      if r.Failure? {
        return out, closed, Some(r.error);
      }
      CloseStep(db, files, closed, key);
      out := r.value;
      closed := closed + {key};
      todo := todo - {key};
    }
    return out, closed, None;
  }
}

=== FILE: sets.dfy ===
/** Choosing from a set, as iterating over a Python dict does. */
module Sets {

  /** Some element of a non-empty set. */
  lemma Pick<T>(s: set<T>) returns (x: T)
    requires s != {}
    ensures x in s
  {
    x :| x in s;
  }
}

=== FILE: shelves.dfy ===
/** A device collection (`BookeenShelf`). */
module Shelves {
  import opened Wrappers
  import opened Catalog
  import opened Books

  /** A named, possibly read-only collection whose members keep link order. */
  datatype Shelf = Shelf(name: Option<string>, id: int, readonly: bool, books: seq<Book>)

  /** `BookeenShelf(row)`: no members yet. */
  function FromRow(row: ShelfRow): (s: Shelf)
    ensures s.id == row.idShelf && s.name == row.name
    ensures s.readonly <==> row.readonly == Some(1)
    ensures s.books == []
  {
    Shelf(row.name, row.idShelf, row.readonly == Some(1), [])
  }

  /** `add_book`. */
  function AddBook(s: Shelf, b: Book): (r: Shelf)
    ensures r.books == s.books + [b]
    ensures r.name == s.name && r.id == s.id && r.readonly == s.readonly
  {
    s.(books := s.books + [b])
  }

  /** `get_books`. */
  function GetBooks(s: Shelf): (r: seq<Book>)
    ensures r == s.books
  {
    s.books
  }

  /** Adds each book of `bs` in turn. */
  function AddAll(s: Shelf, bs: seq<Book>): Shelf
    decreases |bs|
  {
    if bs == [] then s else AddAll(AddBook(s, bs[0]), bs[1..])
  }

  /**
   * `get_books` returns the members in the order `add_book` received them,
   * after the ones already there; nothing else about the shelf changes.
   */
  lemma {:induction false} InsertionOrder(s: Shelf, bs: seq<Book>)
    ensures GetBooks(AddAll(s, bs)) == GetBooks(s) + bs
    ensures AddAll(s, bs).name == s.name && AddAll(s, bs).id == s.id
    ensures AddAll(s, bs).readonly == s.readonly
    decreases |bs|
  {
    if bs != [] {
      InsertionOrder(AddBook(s, bs[0]), bs[1..]);
      assert [bs[0]] + bs[1..] == bs;
    }
  }
}

=== FILE: wrappers.dfy ===
/** Failure-compatible wrappers used to model Python's `None` and its exceptions. */
module Wrappers {

  /** A nullable value: `None` is Python's `None` (or SQL `NULL`). */
  datatype Option<+T> = None | Some(value: T)

  /** The outcome of an operation that may raise. */
  datatype Result<+R, +E> = Success(value: R) | Failure(error: E) {

    predicate IsFailure() {
      Failure?
    }

    function PropagateFailure<U>(): Result<U, E>
      requires Failure?
    {
      Failure(error)
    }

    function Extract(): R
      requires Success?
    {
      value
    }
  }
}
